=== FILE: README.md ===
# Arena allocator and arena-backed byte strings

This project models two layers of a small C codebase:

- **The bump-pointer arena of `core/memory.h`.** An arena is a cursor `begin` and a limit `end` into a block the system allocator returned.
  - `alloc_internal(a, sz, align, count, flags)` aligns the cursor with the two's-complement "negate and mask" trick and checks capacity.
  - When the request does not fit, it returns NULL (flag `SOFTFAIL`) or aborts.
  - Otherwise it bumps the cursor and zero-fills the block unless `NOZERO` is set.
  - `arena_init` and `arena_free` create and release an arena.
  - The `alloc2`/`alloc3`/`alloc4` macros fill in `count` and `flags`.
- **The `s8` byte string of `core/s8.h` and `core/s8.c`.** An `s8` is a pointer and an explicit length, with a zero terminator kept after the content for C interop.
  - The `s8(lit)` macro wraps a string literal.
  - `s8_new`, `s8_from_cstr`, `s8_cpy` and `s8_cat` build strings inside an arena.

## How it is modelled

- **Memory.** Memory is one flat byte sequence (`seq<bv8>`) indexed by address. Addresses are naturals and `NULL` is 0.
- **State.** A state is an arena together with the memory.
- **Arena.** The arena is `Arena(base, begin, end)`. `base` is the address the system allocator returned. The C struct does not keep it; the model needs it to state what `arena_free` ought to release.
- **Allocation.** Allocation is a pure function from the state before the call to an `Outcome`:
  - `Ok(pointer, state after)`;
  - `SoftFailNull(state after)`;
  - `Abort(state when abort() runs)`.

  "Nothing changed" is therefore an ordinary equation between states.
- **Padding.** Padding is computed as the source computes it. The cursor is taken modulo 2^64 (`uptr`) and negated with wrap-around. The result is then combined with `align - 1` by a bitwise AND written out over naturals. `Alignment.NegateAndMaskIsLeastPadding` proves that this is the least offset that aligns the cursor.
- **C library routines.** `memset`, `memcpy` and `strlen` are modelled in `LibC` over the flat memory.
- **Modules:**
  - `Alignment` (`alignment.dfy`);
  - `LibC` (`libc.dfy`);
  - `Memory` (`memory.dfy`);
  - `Trace` (`trace.dfy`): runs of many requests;
  - `ByteString` (`s8.dfy`);
  - `Scenarios` (`scenarios.dfy`): concrete runs.

## Model

| member | source | states |
|---|---|---|
| `Alignment.Padding` | core/memory.h:21 | The padding is below `align`. The padded cursor is a multiple of `align`. No address between the cursor and the padded cursor is a multiple of `align`. |
| `Alignment.NegateAndMaskIsLeastPadding` | core/memory.h:21 | For every power-of-two alignment up to 2^64, `-(uptr)begin & (align - 1)` is exactly the least non-negative offset that makes `begin` a multiple of `align`. |
| `Alignment.LowMaskIsRemainder` | core/memory.h:21 | Masking with `align - 1` for a power-of-two `align` keeps the remainder modulo `align`. |
| `Alignment.NegationPadding` | core/memory.h:21 | Let `w` be a multiple of `d`. The negation of `x` modulo `w`, reduced modulo `d`, aligns `x` to `d` with no smaller aligning offset. |
| `LibC.Memset` | core/memory.h:31 | `memset` writes the value into exactly the n bytes at the address and leaves every other byte as it was. |
| `LibC.Memcpy` | core/s8.c:17 | For non-overlapping ranges, `memcpy` makes the n bytes at the destination read as the source bytes did, and changes nothing else. |
| `LibC.Strlen` | core/s8.c:15 | `strlen` returns the distance to the first zero byte: that byte is zero and none before it is. |
| `Memory.AllocInternal` | core/memory.h:19-32 | The call succeeds exactly when the padded request fits in `[begin, end)`. Otherwise it returns NULL with the state unchanged when `SOFTFAIL` is set, and aborts with the state unchanged when it is not. On success the pointer is the cursor plus the padding, `begin + (-begin & (align - 1))`. It is aligned and lies in `[begin, begin + align)`, so it is not NULL when the arena's block is not. The block ends by `end`. The cursor moves to the block's end and `end` stays put. The invariant is kept. No byte outside the block changes. The block is all zero unless `NOZERO` is set, and memory is untouched when it is. |
| `Memory.AllocSucceedsIffPlaceable` | core/memory.h:21-23 | The allocator succeeds if and only if some aligned placement of the block fits in the free region, so its choice of padding never refuses a request that could be served. |
| `Memory.SuccessiveAllocationsDoNotOverlap` | core/memory.h:29-30 | After two successful allocations, the second block starts at or after the end of the first. The cursor never decreases. The bytes of the first block are untouched by the second call. |
| `Memory.AllocCount` | core/memory.h:41-42 | `alloc3` never takes the `SOFTFAIL` path. It aborts exactly when the request does not fit, with the state unchanged. On success the pointer is not NULL when the arena's block is not. On success the block starts at the old cursor plus the padding, so it is aligned. The cursor moves to the block's end and `end` stays put, so the block lies in the old `[begin, end)`. The block is zero-filled and no byte outside it changes. |
| `Memory.AllocOne` | core/memory.h:39-40 | `alloc2` allocates one element. It never takes the `SOFTFAIL` path and aborts exactly when one element does not fit, with the state unchanged. On success the pointer is not NULL when the arena's block is not. Otherwise it returns a block of `sz` bytes at the old cursor plus the padding, so the block is aligned. The cursor moves to the block's end and `end` stays put. The block is zero-filled and no byte outside it changes. |
| `Memory.ArenaInit` | core/memory.h:46-51 | A new arena over a non-NULL block starts at the block the system allocator returned and has `end - begin == size`. |
| `Memory.FreshArenaServesItsCapacity` | core/memory.h:46-51 | A fresh arena of capacity `size` satisfies the invariant. A byte-aligned request for `k` bytes succeeds exactly when `k <= size`, at the start of the block, leaving `size - k` bytes. |
| `Memory.ArenaFreeAsWritten` | core/memory.h:53-56 | As written, `arena_free` hands `free` the current cursor `begin` and leaves `begin == end == NULL`. So it hands `free` the block start exactly when the cursor never moved. |
| `Memory.FreeAsWrittenReleasesWrongAddress` | core/memory.h:54 | After one byte has been allocated from a fresh arena, the as-written release hands `free` the address one past the block start. |
| `Memory.ArenaFree` | core/memory.h:53-56 | The corrected release hands `free` the block start and leaves the empty arena, `begin == end == NULL`. |
| `Memory.FreedArenaServesNothing` | core/memory.h:55 | No request for at least one element succeeds on the emptied arena. |
| `Trace.Execute` | core/memory.h:19-31 | Serving a sequence of requests in order keeps several facts: the invariant holds; `base` and `end` are fixed; the cursor only grows; nothing outside the arena changes. Every block handed out lies between the initial and the final cursor, is aligned, and is still zero if it was zero-filled. Each block names the request it serves and has that request's size `count * sz`, its alignment, and its fill (zeroed unless `NOZERO`). Blocks lie one after another and serve increasing requests. A run ends in abort only if some request lacked `SOFTFAIL`. |
| `Trace.FirstRequestDecides` | core/memory.h:21-31 | When the first request fits, the run's first block serves it, at the cursor plus the padding. When it does not fit and lacks `SOFTFAIL`, the run aborts at once with no blocks and the state unchanged. |
| `Trace.OneBlockPerRequest` | core/memory.h:23-31 | A run hands out at most one block per request. It hands out exactly one per request when no request carries `SOFTFAIL` and the run does not abort. |
| `Trace.RunFromFreshArena` | core/memory.h:46-56 | Every block a run serves from a fresh arena lies within the block the system allocator returned. The corrected release hands back that block. The as-written release hands back the final cursor. |
| `ByteString.U8Allocation` | core/s8.c:8 | Allocating `len + 1` elements of `u8` without `SOFTFAIL` needs no padding. It never takes the `SOFTFAIL` path, aborts with the state unchanged exactly when there is no room for `len + 1` bytes, and otherwise places the block at the cursor and moves the cursor by exactly `len + 1`. That pointer is not NULL when the arena's block is not. |
| `ByteString.Literal` | core/s8.h:4-5 | `s8(lit)` aliases the literal's storage. Its pointer is the literal's address and its length is the number of characters, `sizeof(lit) - 1`, not counting the compiler's NUL. |
| `ByteString.LiteralDenotesItsText` | core/s8.h:4-5 | `s8(lit)` has `len == sizeof(lit) - 1`. Its content is the literal's characters, embedded zeros included. The byte at `len` is the compiler's NUL. |
| `ByteString.New` | core/s8.c:5-11 | `s8_new` never takes the `SOFTFAIL` path and aborts exactly when `len + 1` bytes do not fit. Otherwise it returns length `len` at the old cursor, consumes exactly `len + 1` bytes, writes only that block, and all `len + 1` bytes are zero. The string's pointer is not NULL when the arena's block is not. |
| `ByteString.FromCString` | core/s8.c:13-19 | The length of `s8_from_cstr`'s result is the index of the input's first zero byte. The content equals the input's bytes before it. The terminator is in place. Exactly `len + 1` bytes are consumed, at a pointer that is not NULL when the arena's block is not. It aborts when they do not fit and never takes the `SOFTFAIL` path. |
| `ByteString.CopiedWithTerminator` | core/s8.c:17 | Copying `len + 1` bytes from a C string copies its content and puts its terminator at index `len`, changing nothing outside the block. |
| `ByteString.Copy` | core/s8.c:21-28 | `s8_cpy` gives the source's length. It requires only that the copy's own two ranges not overlap, as `memcpy` does. Its content is the source read after the terminator store, and equals the source's content byte for byte, embedded zeros included, when the source lies outside the new block. The terminator is in place. Exactly `len + 1` bytes are consumed and only the new block is written, at a pointer that is not NULL when the arena's block is not. It aborts when they do not fit and never takes the `SOFTFAIL` path. |
| `ByteString.WriteCopy` | core/s8.c:25-26 | Storing the terminator and then copying the source leaves a zero after the block's content and changes nothing outside the `len + 1` bytes. The content is the source as it reads after the terminator store, which is the source's original content when the source lies outside the block. |
| `ByteString.Concat` | core/s8.c:30-38 | `s8_cat` gives length `x.len + y.len`. It requires only that each copy's own two ranges not overlap, as `memcpy` does. The byte at index `len` is zero. Exactly `len + 1` bytes are consumed and only the new block is written. When both inputs lie outside the new block, the content is `x`'s content immediately followed by `y`'s. The pointer is not NULL when the arena's block is not. It aborts when the bytes do not fit and never takes the `SOFTFAIL` path. |
| `ByteString.WriteConcat` | core/s8.c:34-36 | Storing the terminator and then the two copies leaves a zero after the block's content and changes nothing outside the `len + 1` bytes. When both inputs lie outside the block, the content is `x`'s content followed by `y`'s. |
| `ByteString.ConcatSteps` | core/s8.c:34-36 | The three stores of `s8_cat` are described only by what each step keeps and writes. Together they change only the block and keep the terminator. The first part holds `x` as it read after the terminator store. With both inputs outside the block, the whole reads `x`'s content followed by `y`'s. |
| `ByteString.BuiltLeavesOtherStrings` | core/s8.c:24-26 | A constructor writes only its own block, so every string disjoint from it reads the same afterwards. |
| `ByteString.CopyLeavesSource` | core/s8.c:21-28 | `s8_cpy` leaves a source that lies outside the new block as it was. |
| `ByteString.ConcatLeavesInputs` | core/s8.c:30-38 | `s8_cat` leaves inputs that lie outside the new block as they were. The result's content is then the concatenation of the inputs as they still read afterwards. |
| `ByteString.FromCStringOfLiteral` | core/s8.c:13-18 | For a literal without embedded zeros, scanning to the first zero gives the literal's length. `s8_from_cstr` on the literal's storage then yields the same length and content as `s8(lit)`, and succeeds exactly when there is room. |
| `ByteString.LengthNotTerminatorDelimits` | core/s8.h:6-9 | For a literal with a zero byte at index `k`, `s8_cpy` of `s8(lit)` keeps all its bytes, whereas `s8_from_cstr` on the same storage stops at `k`: the length, not the terminator, delimits an `s8`. |
| `Scenarios.ArenaServesTenZeroBytes` | core/memory.h:41-42 | From a fresh 1024-byte arena, `alloc(a, u8, 10)` returns the block start, ten zero bytes, with the cursor at offset 10. |
| `Scenarios.SmallArenaRefusesLargeRequest` | core/memory.h:23-27 | A 16-byte arena asked for 20 bytes returns NULL with the state unchanged under `SOFTFAIL`, and aborts with the state unchanged without it. |
| `Scenarios.ReadFoo` | core/s8.c:13-18 | Reading "foo" with `s8_from_cstr` into a fresh arena gives a string of length 3 at the arena's first byte. It reads "foo" and is terminated, and the "bar" literal below the arena is left intact. |
| `Scenarios.ReadFooAndBar` | core/s8.c:13-18 | Reading "foo" and then "bar" with `s8_from_cstr` gives strings of length 3 at offsets 0 and 4 of the arena, each reading its text and terminated. |
| `Scenarios.FooBar` | core/s8.c:30-37 | Concatenating those two gives a string of length 6 reading "foobar" and terminated, and both inputs still read "foo" and "bar". |
| `Scenarios.ConcatReadsSecondInputAfterFirstCopy` | core/s8.c:34-36 | Say "a" is concatenated with a one-byte string "b" that sits at the arena's cursor. The first copy overwrites "b" before the second copy reads it, so the result reads "aa", not "ab". |
| `Scenarios.CopyReadsSourceAfterTerminator` | core/s8.c:25-26 | Copying a one-byte string "b" that starts where the copy's terminator goes yields a zero byte: the terminator store overwrites the source before the copy reads it. |

## Left out

- `app.cc` (the SDL window, event loop and rendering) is not part of this model. It is I/O over a foreign library and does not touch the allocator's logic.
- The system allocator is a parameter. `arena_init` receives the address `malloc` returned, and `arena_free` reports the address it would hand to `free`. `Memory.ArenaInit` requires the block to be non-NULL, so a failing `malloc`, which `arena_init` does not check, is excluded. The choice of address is not modelled.
- Address 0 (NULL) is ordinary memory in the model. The non-NULL guarantees therefore hold for arenas whose block is not NULL. The emptied arena that `arena_free` leaves has `begin == end == NULL`, and a zero-count request on it succeeds with the pointer NULL, as `NULL + 0` in C.
- The variadic `alloc(...)` dispatch on argument count is not modelled. Each macro is modelled by the `alloc_internal` call it expands to, and `alloc4` is `Memory.AllocInternal` itself.
- `alloc2` passes an identifier `count` that is not among its parameters. The model uses one element, the evident intent (`Memory.AllocOne`).
- Integers are unbounded. The following are not modelled: overflow of `count * sz`, overflow of `len + 1`, and the mixing of signed `size` with unsigned `size_t` and `uptr`. The `sizeof` redefinition as a signed value is not modelled either. The model requires `sz > 0`, `count >= 0` and a power-of-two alignment of at most 2^64.
- Because `count * sz` is never negative, the source's `available < 0` test cannot change the outcome. The model keeps it but proves the outcome from the single condition `begin + padding + count * sz <= end`.
- `memcpy` with overlapping ranges and `strlen` or `memcpy` on NULL or unterminated input are undefined in C. The constructors therefore require exactly this much, and no more, of their inputs:
  - each input lies inside memory;
  - `s8_from_cstr`'s input is a terminated C string;
  - each `memcpy` call's source and destination ranges do not overlap.

  An input that lies in the arena's unallocated region may still overlap the new block, for example a string built in a by-value copy of the arena. For such inputs the model gives the C result: each copy reads its source as the earlier stores left it. `Scenarios.CopyReadsSourceAfterTerminator` and `Scenarios.ConcatReadsSecondInputAfterFirstCopy` show two such results. The equalities "content equals the input" of `ByteString.Copy` and "content is `x` followed by `y`" of `ByteString.Concat` are promised only for inputs outside the new block.
- Single-threaded use is assumed. Concurrency is not modelled.

## Findings

| source | as written | input that shows it | evidently intended | confidence | as-written member | corrected member |
|---|---|---|---|---|---|---|
| core/memory.h:54 | `arena_free` calls `free(a->begin)`, and by then `begin` has been bumped past every allocation | `arena_init(n)` with `n >= 1`, then a one-byte allocation, then `arena_free`: `free` receives the block start plus one, which `malloc` never returned | hand `free` the address `malloc` returned | high; not executed | `Memory.FreeAsWrittenReleasesWrongAddress` | `Memory.ArenaFree` |

=== FILE: alignment.dfy ===
/**
 Alignment arithmetic of the bump allocator (core/memory.h, line 21).

 The allocator computes the padding in front of the cursor with the
 two's-complement "negate and mask" trick: the cursor is cast to an unsigned
 64-bit pointer-sized integer, negated (wrapping modulo 2^64) and masked with
 `align - 1`. This module models that computation over unbounded integers,
 with the wrap-around and the bitwise AND written out, and proves that for a
 power-of-two alignment it yields the least padding that aligns the cursor.
 */
module Alignment {

  /** 2^k. */
  function Pow2(k: nat): (r: nat)
    ensures r >= 1
  {
    if k == 0 then 1 else 2 * Pow2(k - 1)
  }

  /** Number of bits of `uptr`, the unsigned pointer-sized integer. */
  const UPTR_BITS: nat := 64

  /** Arithmetic on `uptr` wraps modulo this value, 2^UPTR_BITS. */
  const UPTR_MODULUS: nat := 0x1_0000_0000_0000_0000

  lemma UptrModulusIsPow2()
    ensures IsPow2(UPTR_MODULUS)
  {
    UptrModulusValue();
    Pow2IsPow2(UPTR_BITS);
  }

  lemma UptrModulusValue()
    ensures Pow2(UPTR_BITS) == UPTR_MODULUS
  {
    var p8 := Pow2(8);
    assert p8 == 0x100;
    Pow2Add(8, 8);
    var p16 := Pow2(16);
    assert p16 == 0x1_0000;
    Pow2Add(16, 16);
    var p32 := Pow2(32);
    assert p32 == 0x1_0000_0000;
    Pow2Add(32, 32);
  }

  lemma {:induction false} Pow2Add(a: nat, b: nat)
    ensures Pow2(a + b) == Pow2(a) * Pow2(b)
    decreases a
  {
    if a > 0 {
      Pow2Add(a - 1, b);
      MulAssoc(2, Pow2(a - 1), Pow2(b));
    }
  }

  /** True iff n is a power of two (1, 2, 4, ...). */
  predicate IsPow2(n: nat)
  {
    if n <= 1 then n == 1 else n % 2 == 0 && IsPow2(n / 2)
  }

  /** An alignment the allocator supports: a power of two no wider than `uptr`. */
  predicate ValidAlignment(align: int)
  {
    1 <= align <= UPTR_MODULUS && IsPow2(align)
  }

  /**
   addr is a multiple of align. Defined by repeated subtraction rather than
   with `%`, so that proofs about addresses stay in linear arithmetic;
   `AlignedIsRemainderZero` connects it with the remainder.
   */
  predicate Aligned(addr: nat, align: nat)
    requires align > 0
    decreases addr
  {
    addr == 0 || (addr >= align && Aligned(addr - align, align))
  }

  lemma {:induction false} AlignedIsRemainderZero(addr: nat, align: nat)
    requires align > 0
    ensures Aligned(addr, align) <==> addr % align == 0
    decreases addr
  {
    if addr == 0 {
    } else if addr < align {
      RemainderUnique(addr, align, 0, addr);
    } else {
      AlignedIsRemainderZero(addr - align, align);
      var t := (addr - align) / align;
      var r := (addr - align) % align;
      assert addr - align == align * t + r;
      assert addr == align * (t + 1) + r;
      RemainderUnique(addr, align, t + 1, r);
    }
  }

  /** Bitwise AND of two non-negative integers, bit by bit from the lowest. */
  function BitAnd(x: nat, y: nat): nat
    decreases x
  {
    if x == 0 || y == 0 then 0
    else 2 * BitAnd(x / 2, y / 2) + (if x % 2 == 1 && y % 2 == 1 then 1 else 0)
  }

  /** The negation of x in arithmetic modulo w. */
  function NegMod(x: nat, w: nat): nat
    requires w > 0
  {
    (w - x % w) % w
  }

  /** `-(uptr)x`: the cast keeps x modulo 2^64 and the negation wraps. */
  function UptrNeg(x: nat): nat
  {
    NegMod(x, UPTR_MODULUS)
  }

  /** `-(uptr)begin & (align - 1)`, the padding computed by alloc_internal. */
  function Padding(begin: nat, align: int): (pad: nat)
    requires ValidAlignment(align)
    ensures pad < align
    ensures Aligned(begin + pad, align)
    ensures forall addr: nat :: begin <= addr < begin + pad ==> !Aligned(addr, align)
  {
    NegateAndMaskIsLeastPadding(begin, align);
    BitAnd(UptrNeg(begin), align - 1)
  }

  /**
   For a power-of-two alignment no wider than `uptr`, the negate-and-mask
   computation equals the least non-negative offset that makes `begin`
   a multiple of `align`.
   */
  lemma NegateAndMaskIsLeastPadding(begin: nat, align: int)
    requires ValidAlignment(align)
    ensures BitAnd(UptrNeg(begin), align - 1) < align
    ensures Aligned(begin + BitAnd(UptrNeg(begin), align - 1), align)
    ensures forall addr: nat :: begin <= addr < begin + BitAnd(UptrNeg(begin), align - 1) ==> !Aligned(addr, align)
  {
    var neg := UptrNeg(begin);
    LowMaskIsRemainder(neg, align);
    UptrModulusIsPow2();
    Pow2Divides(UPTR_MODULUS, align);
    NegationPadding(begin, UPTR_MODULUS, align);
    assert BitAnd(neg, align - 1) == NegMod(begin, UPTR_MODULUS) % align;
  }

  /**
   With w a multiple of d, the wrapped negation of x modulo w, reduced
   modulo d, is the least offset that makes x a multiple of d.
   */
  lemma NegationPadding(x: nat, w: nat, d: nat)
    requires w > 0 && d > 0 && w % d == 0
    ensures var pad := NegMod(x, w) % d;
      && Aligned(x + pad, d)
      && forall addr: nat :: x <= addr < x + pad ==> !Aligned(addr, d)
  {
    var neg := NegMod(x, w);
    var pad := neg % d;
    var t := w / d;
    assert w == d * t;
    var m := WrapNegation(x, w);
    assert neg + x == d * (t * m) by {
      MulAssoc(d, t, m);
    }
    var k := neg / d;
    assert neg == d * k + pad;
    assert x + pad == d * (t * m - k) by {
      MulSub(d, t * m, k);
    }
    RemainderUnique(x + pad, d, t * m - k, 0);
    AlignedIsRemainderZero(x + pad, d);
    forall addr: nat | x <= addr < x + pad
      ensures !Aligned(addr, d)
    {
      AlignedIsRemainderZero(addr, d);
      if addr % d == 0 {
        NoMultipleStrictlyCloser(addr, x + pad, d);
      }
    }
  }

  /** Masking with 2^k - 1 keeps the k low bits, i.e. the remainder modulo 2^k. */
  lemma {:induction false} LowMaskIsRemainder(x: nat, align: nat)
    requires IsPow2(align)
    ensures BitAnd(x, align - 1) == x % align
    decreases align
  {
    if align == 1 {
      assert BitAnd(x, 0) == 0;
    } else if x == 0 {
    } else {
      var h := align / 2;
      assert align == 2 * h;
      assert (align - 1) % 2 == 1 && (align - 1) / 2 == h - 1;
      LowMaskIsRemainder(x / 2, h);
      assert BitAnd(x, align - 1) == 2 * ((x / 2) % h) + x % 2;
      HalvingRemainder(x, h);
    }
  }

  /** x mod 2h is recovered from (x / 2) mod h and the low bit of x. */
  lemma HalvingRemainder(x: nat, h: nat)
    requires h > 0
    ensures 2 * ((x / 2) % h) + x % 2 == x % (2 * h)
  {
    var q := x / 2;
    var u := q % h;
    var t := q / h;
    assert q == h * t + u;
    assert x == 2 * q + x % 2;
    assert x == (2 * h) * t + (2 * u + x % 2) by {
      MulAssoc(2, h, t);
    }
    RemainderUnique(x, 2 * h, t, 2 * u + x % 2);
  }

  /** The Euclidean remainder is the unique r in [0, d) with x == d * t + r. */
  lemma RemainderUnique(x: int, d: int, t: int, r: int)
    requires d > 0 && 0 <= r < d && x == d * t + r
    ensures x % d == r
  {
    var t' := x / d;
    var r' := x % d;
    assert d * t' + r' == d * t + r;
    if t' > t {
      MulMonotone(d, t' - t);
      MulSub(d, t', t);
    } else if t' < t {
      MulMonotone(d, t - t');
      MulSub(d, t, t');
    }
  }

  lemma MulMonotone(d: int, k: int)
    requires d > 0 && k >= 1
    ensures d * k >= d
  {
  }

  lemma MulSub(a: int, b: int, c: int)
    ensures a * (b - c) == a * b - a * c
  {
  }

  lemma MulAssoc(a: int, b: int, c: int)
    ensures a * (b * c) == (a * b) * c
  {
  }

  /** Two distinct multiples of d are at least d apart. */
  lemma NoMultipleStrictlyCloser(a: int, b: int, d: int)
    requires d > 0 && a % d == 0 && b % d == 0 && a < b
    ensures b - a >= d
  {
    var ka := a / d;
    var kb := b / d;
    assert a == d * ka && b == d * kb;
    MulSub(d, kb, ka);
    if kb - ka < 1 {
      assert d * (kb - ka) <= 0 by {
        if kb - ka < 0 {
          MulMonotone(d, ka - kb);
          MulSub(d, ka, kb);
        }
      }
    } else {
      MulMonotone(d, kb - ka);
    }
  }

  /** Negating modulo w and adding back gives a multiple of w. */
  lemma WrapNegation(x: nat, w: nat) returns (m: int)
    requires w > 0
    ensures NegMod(x, w) + x == w * m
  {
    var q := x / w;
    var r := x % w;
    assert x == w * q + r;
    if r == 0 {
      assert (w - r) % w == 0 by {
        RemainderUnique(w, w, 1, 0);
      }
      m := q;
    } else {
      assert (w - r) % w == w - r by {
        RemainderUnique(w - r, w, 0, w - r);
      }
      m := q + 1;
      assert w * (q + 1) == w * q + w;
    }
  }

  lemma {:induction false} Pow2IsPow2(k: nat)
    ensures IsPow2(Pow2(k))
  {
    if k > 0 {
      Pow2IsPow2(k - 1);
      assert Pow2(k) / 2 == Pow2(k - 1);
    }
  }

  /** A power of two divides every power of two at least as large. */
  lemma {:induction false} Pow2Divides(n: nat, a: nat)
    requires IsPow2(n) && IsPow2(a) && a <= n
    ensures n % a == 0
    decreases a
  {
    if a > 1 {
      Pow2Divides(n / 2, a / 2);
      var t := (n / 2) / (a / 2);
      assert n / 2 == (a / 2) * t;
      assert n == a * t by {
        MulAssoc(2, a / 2, t);
      }
      RemainderUnique(n, a, t, 0);
    }
  }
}

=== FILE: libc.dfy ===
/**
 The three C library routines the core relies on, over a flat byte memory:
 `memset` (zero-filling a fresh block), `memcpy` (copying string contents)
 and `strlen` (measuring a zero-terminated input). Addresses are naturals
 indexing the memory sequence.
 */
module LibC {

  type Address = nat

  /** The null pointer. */
  const NULL: Address := 0

  /** The byte at address i. */
  function At(mem: seq<bv8>, i: nat): bv8
    requires i < |mem|
  {
    mem[i]
  }

  /** The n bytes of mem starting at address at. */
  function Region(mem: seq<bv8>, at: Address, n: nat): seq<bv8>
    requires at + n <= |mem|
  {
    mem[at..at + n]
  }

  /** Every byte of mem in [lo, hi) is zero. */
  predicate AllZero(mem: seq<bv8>, lo: nat, hi: nat)
    requires lo <= hi <= |mem|
  {
    forall i :: lo <= i < hi ==> At(mem, i) == 0
  }

  /**
   mem' differs from mem at most in [lo, hi). Stated through `At` and
   triggered on the newer memory only, so that the quantifier is
   instantiated just for the addresses a proof asks about after the change.
   */
  predicate UnchangedOutside(mem: seq<bv8>, mem': seq<bv8>, lo: nat, hi: nat)
  {
    && |mem'| == |mem|
    && forall i {:trigger At(mem', i)} :: 0 <= i < |mem| && !(lo <= i < hi) ==> At(mem', i) == At(mem, i)
  }

  /** The ranges [a, a + n) and [b, b + m) share no address. */
  predicate NoOverlap(a: nat, n: nat, b: nat, m: nat)
  {
    a + n <= b || b + m <= a || n == 0 || m == 0
  }

  /** `memset(at, v, n)`: store v into the n bytes from at. */
  function Memset(mem: seq<bv8>, at: Address, v: bv8, n: nat): (r: seq<bv8>)
    requires at + n <= |mem|
    ensures UnchangedOutside(mem, r, at, at + n)
    ensures forall i {:trigger At(r, i)} :: at <= i < at + n ==> At(r, i) == v
  {
    seq(|mem|, i requires 0 <= i < |mem| => if at <= i < at + n then v else mem[i])
  }

  /**
   `memcpy(dst, src, n)`: copy n bytes from src to dst. memcpy is undefined
   when the two ranges overlap, so the model requires that they do not; the
   bytes at dst are then those at src, whatever order they are copied in.
   */
  function Memcpy(mem: seq<bv8>, dst: Address, src: Address, n: nat): (r: seq<bv8>)
    requires dst + n <= |mem| && src + n <= |mem|
    requires NoOverlap(src, n, dst, n)
    ensures UnchangedOutside(mem, r, dst, dst + n)
    ensures forall i {:trigger At(r, i)} :: dst <= i < dst + n ==> At(r, i) == At(mem, i - dst + src)
  {
    seq(|mem|, i requires 0 <= i < |mem| => if dst <= i < dst + n then mem[i - dst + src] else mem[i])
  }

  /** Changes confined to [lo, hi) are also confined to any wider range. */
  lemma UnchangedWiden(mem: seq<bv8>, mem': seq<bv8>, lo: nat, hi: nat, lo': nat, hi': nat)
    requires UnchangedOutside(mem, mem', lo, hi)
    requires lo' <= lo && hi <= hi'
    ensures UnchangedOutside(mem, mem', lo', hi')
  {
    forall i | 0 <= i < |mem| && !(lo' <= i < hi')
      ensures At(mem', i) == At(mem, i)
    {
      assert !(lo <= i < hi);
    }
  }

  /** Two steps that each change only [lo, hi) together change only [lo, hi). */
  lemma UnchangedCompose(m1: seq<bv8>, m2: seq<bv8>, m3: seq<bv8>, lo: nat, hi: nat)
    requires UnchangedOutside(m1, m2, lo, hi) && UnchangedOutside(m2, m3, lo, hi)
    ensures UnchangedOutside(m1, m3, lo, hi)
  {
    forall i | 0 <= i < |m1| && !(lo <= i < hi)
      ensures At(m3, i) == At(m1, i)
    {
      assert At(m3, i) == At(m2, i);
    }
  }

  /** A store inside [lo, hi) keeps the changes confined to [lo, hi). */
  lemma StoreInside(mem: seq<bv8>, mem': seq<bv8>, lo: nat, hi: nat, at: nat, v: bv8)
    requires UnchangedOutside(mem, mem', lo, hi)
    requires lo <= at < hi && at < |mem'|
    ensures UnchangedOutside(mem, mem'[at := v], lo, hi)
  {
    var m := mem'[at := v];
    forall i | 0 <= i < |mem| && !(lo <= i < hi)
      ensures At(m, i) == At(mem, i)
    {
      assert At(mem', i) == At(mem, i);
    }
  }

  /** Storing a zero into a zero range leaves it zero. */
  lemma ZeroStoreKeepsZero(mem: seq<bv8>, lo: nat, hi: nat, at: nat)
    requires lo <= hi <= |mem| && at < |mem|
    requires AllZero(mem, lo, hi)
    ensures AllZero(mem[at := 0], lo, hi)
  {
    var m := mem[at := 0];
    forall i | lo <= i < hi
      ensures At(m, i) == 0
    {
      assert At(mem, i) == 0;
    }
  }

  /** Equal bytes at matching offsets make equal slices. */
  lemma SlicesEqual(a: seq<bv8>, i: nat, b: seq<bv8>, j: nat, n: nat)
    requires i + n <= |a| && j + n <= |b|
    requires forall k :: i <= k < i + n ==> a[k] == b[k - i + j]
    ensures a[i..i + n] == b[j..j + n]
  {
    var sa, sb := a[i..i + n], b[j..j + n];
    forall k | 0 <= k < n
      ensures sa[k] == sb[k]
    {
      assert a[i + k] == b[i + k - i + j];
    }
  }

  /** A range that lies outside the changed region reads the same afterwards. */
  lemma UnchangedSlice(mem: seq<bv8>, mem': seq<bv8>, lo: nat, hi: nat, a: nat, n: nat)
    requires UnchangedOutside(mem, mem', lo, hi)
    requires a + n <= |mem| && lo <= hi && NoOverlap(a, n, lo, hi - lo)
    ensures Region(mem', a, n) == Region(mem, a, n)
  {
    forall k | a <= k < a + n
      ensures mem'[k] == mem[k - a + a]
    {
      assert At(mem', k) == At(mem, k);
    }
    SlicesEqual(mem', a, mem, a, n);
  }

  /** A range reads the same after a change confined to [lo, hi) whenever it lies outside [lo, hi). */
  lemma UnchangedSliceWhenDisjoint(mem: seq<bv8>, mem': seq<bv8>, lo: nat, hi: nat, a: nat, n: nat)
    requires UnchangedOutside(mem, mem', lo, hi)
    requires a + n <= |mem| && lo <= hi
    ensures NoOverlap(a, n, lo, hi - lo) ==> Region(mem', a, n) == Region(mem, a, n)
  {
    if NoOverlap(a, n, lo, hi - lo) {
      UnchangedSlice(mem, mem', lo, hi, a, n);
    }
  }

  /** The n + m bytes at `at` are the n bytes at `at` followed by the m bytes after them. */
  lemma RegionSplit(mem: seq<bv8>, at: Address, n: nat, m: nat)
    requires at + n + m <= |mem|
    ensures Region(mem, at, n + m) == Region(mem, at, n) + Region(mem, at + n, m)
  {
    assert mem[at..at + n + m] == mem[at..at + n] + mem[at + n..at + n + m];
  }

  /** After `memcpy(dst, src, n)` the n bytes at dst read as the n bytes at src did. */
  lemma MemcpySlice(mem: seq<bv8>, dst: Address, src: Address, n: nat)
    requires dst + n <= |mem| && src + n <= |mem|
    requires NoOverlap(src, n, dst, n)
    ensures Region(Memcpy(mem, dst, src, n), dst, n) == Region(mem, src, n)
  {
    var r := Memcpy(mem, dst, src, n);
    forall k | dst <= k < dst + n
      ensures r[k] == mem[k - dst + src]
    {
      assert At(r, k) == At(mem, k - dst + src);
    }
    SlicesEqual(r, dst, mem, src, n);
  }

  /** A zero byte occurs at or after addr: addr points to a C string. */
  predicate IsCString(mem: seq<bv8>, addr: Address)
  {
    exists k :: addr <= k < |mem| && mem[k] == 0
  }

  /** n is the distance from addr to the first zero byte at or after it. */
  predicate FirstZero(mem: seq<bv8>, addr: Address, n: nat)
  {
    && addr + n < |mem|
    && mem[addr + n] == 0
    && forall i :: addr <= i < addr + n ==> mem[i] != 0
  }

  /** The first zero byte is unique, so a scan has only one right answer. */
  lemma FirstZeroUnique(mem: seq<bv8>, addr: Address, n: nat, m: nat)
    requires FirstZero(mem, addr, n) && FirstZero(mem, addr, m)
    ensures n == m
  {
  }

  /** `strlen(addr)`: count bytes until the terminating zero. */
  function Strlen(mem: seq<bv8>, addr: Address): (n: nat)
    requires IsCString(mem, addr)
    ensures FirstZero(mem, addr, n)
    decreases |mem| - addr
  {
    if mem[addr] == 0 then 0 else 1 + Strlen(mem, addr + 1)
  }
}

=== FILE: memory.dfy ===
/**
 The bump-pointer arena of core/memory.h.

 Memory is one flat byte sequence indexed by address. An arena is a pair of
 addresses `begin` (the cursor) and `end` (the limit) into a block obtained
 from the system allocator; the model also records `base`, the address the
 system allocator returned, which the C struct does not keep (see
 `ArenaFreeAsWritten`).

 Allocation is a pure function from the state before the call to an
 `Outcome`: a pointer and the state after the call, the null pointer with
 the state after the call (SOFTFAIL), or process abort with the state at
 the moment `abort()` runs.
 */
module Memory {
  import opened Alignment
  import opened LibC

  datatype Arena = Arena(base: Address, begin: Address, end: Address)

  datatype State = State(arena: Arena, mem: seq<bv8>)

  /** The arena invariant: base <= begin <= end, all inside memory. */
  predicate Valid(s: State)
  {
    s.arena.base <= s.arena.begin <= s.arena.end <= |s.mem|
  }

  /** Bytes still available to the bump allocator. */
  function Remaining(a: Arena): int
  {
    a.end - a.begin
  }

  /** The flag bits of `alloc_internal`. */
  const NOZERO: bv32 := 1
  const SOFTFAIL: bv32 := 2

  predicate Has(flags: bv32, flag: bv32)
  {
    flags & flag != 0
  }

  /** What one call into the allocator (or a constructor built on it) does. */
  datatype Outcome<T> =
    | Ok(value: T, post: State)
    | SoftFailNull(post: State)
    | Abort(atExit: State)

  /**
   `count * sz`, the byte size of a request, by repeated addition: kept
   recursive so that proofs about addresses stay in linear arithmetic;
   `BytesIsProduct` shows it is the product.
   */
  function Bytes(count: nat, sz: nat): nat
    decreases count
  {
    if count == 0 then 0 else sz + Bytes(count - 1, sz)
  }

  lemma {:induction false} BytesIsProduct(count: nat, sz: nat)
    ensures Bytes(count, sz) == count * sz
    decreases count
  {
    if count > 0 {
      BytesIsProduct(count - 1, sz);
    }
  }

  lemma {:induction false} BytesOfUnitSize(count: nat)
    ensures Bytes(count, 1) == count
    decreases count
  {
    if count > 0 {
      BytesOfUnitSize(count - 1);
    }
  }

  /** The caller's requirements on one `alloc_internal` request. */
  predicate WellFormedRequest(sz: int, align: int, count: int)
  {
    sz > 0 && count >= 0 && ValidAlignment(align)
  }

  /** The padded request fits between the cursor and the limit. */
  predicate Fits(a: Arena, sz: int, align: int, count: int)
    requires WellFormedRequest(sz, align, count)
  {
    a.begin + Padding(a.begin, align) + Bytes(count, sz) <= a.end
  }

  /**
   `alloc_internal(a, sz, align, count, flags)`: bump the cursor past the
   padding and `Bytes(count, sz)` bytes, zero-filling them unless NOZERO is set;
   on exhaustion return NULL under SOFTFAIL, otherwise abort.
   */
  function AllocInternal(s: State, sz: int, align: int, count: int, flags: bv32): (r: Outcome<Address>)
    requires Valid(s)
    requires WellFormedRequest(sz, align, count)
    ensures r.Ok? <==> Fits(s.arena, sz, align, count)
    ensures r.SoftFailNull? <==> !Fits(s.arena, sz, align, count) && Has(flags, SOFTFAIL)
    ensures r.Abort? <==> !Fits(s.arena, sz, align, count) && !Has(flags, SOFTFAIL)
    ensures r.SoftFailNull? ==> r.post == s
    ensures r.Abort? ==> r.atExit == s
    ensures r.Ok? && s.arena.base != NULL ==> r.value != NULL
    ensures r.Ok? ==>
      && r.value == s.arena.begin + Padding(s.arena.begin, align)
      && Aligned(r.value, align)
      && s.arena.begin <= r.value < s.arena.begin + align
      && r.value + Bytes(count, sz) <= s.arena.end
      && r.post.arena == s.arena.(begin := r.value + Bytes(count, sz))
      && Valid(r.post)
      && UnchangedOutside(s.mem, r.post.mem, r.value, r.value + Bytes(count, sz))
    ensures r.Ok? && !Has(flags, NOZERO) ==> AllZero(r.post.mem, r.value, r.value + Bytes(count, sz))
    ensures r.Ok? && Has(flags, NOZERO) ==> r.post.mem == s.mem
  {
    var padding := Padding(s.arena.begin, align);
    var available := s.arena.end - s.arena.begin - padding;
    if available < 0 || Bytes(count, sz) > available then
      if Has(flags, SOFTFAIL) then SoftFailNull(s) else Abort(s)
    else
      var p := s.arena.begin + padding;
      var n := Bytes(count, sz);
      var arena' := s.arena.(begin := s.arena.begin + padding + n);
      var mem' := if Has(flags, NOZERO) then s.mem else Memset(s.mem, p, 0, n);
      Ok(p, State(arena', mem'))
  }

  /**
   The allocator refuses a request only when no aligned placement of the
   block exists in the free region: the padding it picks is never wasteful.
   */
  lemma AllocSucceedsIffPlaceable(s: State, sz: int, align: int, count: int, flags: bv32)
    requires Valid(s)
    requires WellFormedRequest(sz, align, count)
    ensures AllocInternal(s, sz, align, count, flags).Ok? <==>
      exists p: nat :: s.arena.begin <= p && p + Bytes(count, sz) <= s.arena.end && Aligned(p, align)
  {
    var b := s.arena.begin;
    var pad := Padding(b, align);
    var r := AllocInternal(s, sz, align, count, flags);
    if exists p: nat :: b <= p && p + Bytes(count, sz) <= s.arena.end && Aligned(p, align) {
      var p: nat :| b <= p && p + Bytes(count, sz) <= s.arena.end && Aligned(p, align);
      assert Fits(s.arena, sz, align, count);
      assert exists p: nat :: b <= p && p + Bytes(count, sz) <= s.arena.end && Aligned(p, align);
    }
  }

  /**
   Two successive successful allocations: the second block starts at or
   after the end of the first, and the first block's bytes are untouched.
   */
  lemma SuccessiveAllocationsDoNotOverlap(
    s: State,
    sz1: int, align1: int, count1: int, flags1: bv32,
    sz2: int, align2: int, count2: int, flags2: bv32)
    requires Valid(s)
    requires WellFormedRequest(sz1, align1, count1) && WellFormedRequest(sz2, align2, count2)
    ensures var r1 := AllocInternal(s, sz1, align1, count1, flags1);
      r1.Ok? ==>
      var r2 := AllocInternal(r1.post, sz2, align2, count2, flags2);
      r2.Ok? ==>
      && r1.value + Bytes(count1, sz1) <= r2.value
      && s.arena.begin <= r1.post.arena.begin <= r2.post.arena.begin
      && Region(r2.post.mem, r1.value, Bytes(count1, sz1)) == Region(r1.post.mem, r1.value, Bytes(count1, sz1))
  {
    var r1 := AllocInternal(s, sz1, align1, count1, flags1);
    if r1.Ok? {
      var r2 := AllocInternal(r1.post, sz2, align2, count2, flags2);
      if r2.Ok? {
        UnchangedSlice(r1.post.mem, r2.post.mem, r2.value, r2.value + Bytes(count2, sz2), r1.value, Bytes(count1, sz1));
      }
    }
  }

  /** The `alloc3` macro: default flags (zero-filled, abort on exhaustion). */
  function AllocCount(s: State, sz: int, align: int, count: int): (r: Outcome<Address>)
    requires Valid(s)
    requires WellFormedRequest(sz, align, count)
    ensures !r.SoftFailNull?
    ensures r.Abort? <==> !Fits(s.arena, sz, align, count)
    ensures r.Abort? ==> r.atExit == s
    ensures r.Ok? && s.arena.base != NULL ==> r.value != NULL
    ensures r.Ok? ==> && Aligned(r.value, align) && Valid(r.post)
                      && r.value == s.arena.begin + Padding(s.arena.begin, align)
                      && r.post.arena == s.arena.(begin := r.value + Bytes(count, sz))
                      && UnchangedOutside(s.mem, r.post.mem, r.value, r.post.arena.begin)
                      && AllZero(r.post.mem, r.value, r.post.arena.begin)
  {
    assert !Has(0, SOFTFAIL) && !Has(0, NOZERO);
    AllocInternal(s, sz, align, count, 0)
  }

  /**
   The `alloc2` macro. As written it passes an identifier `count` that is not
   one of its parameters; the model uses the evident default, one element.
   */
  function AllocOne(s: State, sz: int, align: int): (r: Outcome<Address>)
    requires Valid(s)
    requires sz > 0 && ValidAlignment(align)
    ensures !r.SoftFailNull?
    ensures r.Abort? <==> !Fits(s.arena, sz, align, 1)
    ensures r.Abort? ==> r.atExit == s
    ensures r.Ok? && s.arena.base != NULL ==> r.value != NULL
    ensures r.Ok? ==> && Aligned(r.value, align) && Valid(r.post)
                      && r.value == s.arena.begin + Padding(s.arena.begin, align)
                      && r.post.arena == s.arena.(begin := r.value + sz)
                      && UnchangedOutside(s.mem, r.post.mem, r.value, r.post.arena.begin)
                      && AllZero(r.post.mem, r.value, r.post.arena.begin)
  {
    AllocCount(s, sz, align, 1)
  }

  /**
   `arena_init(size)`, given the block address `malloc(size)` returned. The
   source does not check for a failing `malloc`, so the block is required
   to be a real one, not NULL.
   */
  function ArenaInit(block: Address, size: nat): (a: Arena)
    requires block != NULL
    ensures a.base == a.begin == block
    ensures Remaining(a) == size
  {
    Arena(block, block, block + size)
  }

  /**
   A fresh arena of capacity n over a block inside memory satisfies the
   invariant, and a byte-aligned request of k bytes succeeds exactly when
   k <= n, at the start of the block.
   */
  lemma FreshArenaServesItsCapacity(mem: seq<bv8>, block: Address, size: nat, k: nat)
    requires block != NULL && block + size <= |mem|
    ensures Valid(State(ArenaInit(block, size), mem))
    ensures var r := AllocInternal(State(ArenaInit(block, size), mem), 1, 1, k, 0);
      && (r.Ok? <==> k <= size)
      && (r.Ok? ==> r.value == block && Remaining(r.post.arena) == size - k)
  {
    BytesOfUnitSize(k);
    assert Padding(block, 1) == 0;
  }

  /** Result of releasing an arena: the address handed to `free`, and the arena left behind. */
  datatype Release = Release(freed: Address, arena: Arena)

  /** The empty arena `arena_free` leaves behind: begin == end == NULL. */
  const Emptied: Arena := Arena(NULL, NULL, NULL)

  /**
   `arena_free` as written: it hands the bumped cursor `begin` to `free`,
   which is the block start only if nothing was ever allocated.
   */
  function ArenaFreeAsWritten(a: Arena): (r: Release)
    ensures r.arena.begin == r.arena.end == NULL
    ensures r.freed == a.begin
  {
    Release(a.begin, Emptied)
  }

  /** One byte allocated from a fresh arena makes the as-written release miss the block. */
  lemma FreeAsWrittenReleasesWrongAddress(mem: seq<bv8>, block: Address, size: nat)
    requires block != NULL && 1 <= size && block + size <= |mem|
    ensures var r := AllocInternal(State(ArenaInit(block, size), mem), 1, 1, 1, 0);
      && r.Ok?
      && ArenaFreeAsWritten(r.post.arena).freed == block + 1 != block
  {
  }

  /** `arena_free` as intended: release the block start, leave an empty arena. */
  function ArenaFree(a: Arena): (r: Release)
    ensures r.freed == a.base
    ensures r.arena == Emptied && Remaining(r.arena) == 0
  {
    Release(a.base, Emptied)
  }

  /** Nothing of positive size can be allocated from the arena `arena_free` leaves behind. */
  lemma FreedArenaServesNothing(mem: seq<bv8>, sz: int, align: int, count: int, flags: bv32)
    requires WellFormedRequest(sz, align, count) && count >= 1
    ensures Valid(State(Emptied, mem))
    ensures !AllocInternal(State(Emptied, mem), sz, align, count, flags).Ok?
  {
  }
}

=== FILE: s8.dfy ===
/**
 The arena-backed byte string `s8` of core/s8.h and core/s8.c.

 An s8 is a pointer into memory and an explicit length. The `len` bytes at
 the pointer are the content, and may contain zero bytes; the byte at index
 `len` is a zero terminator kept for C interop. Every constructor takes the
 arena explicitly, allocates `len + 1` one-byte-aligned bytes from it with
 default (aborting) failure, and writes only inside that fresh block.
 */
module ByteString {
  import opened Alignment
  import opened LibC
  import opened Memory

  datatype S8 = S8(str: Address, len: nat)

  /** The content bytes [str, str + len) of s. */
  function Content(mem: seq<bv8>, s: S8): seq<bv8>
    requires s.str + s.len <= |mem|
  {
    Region(mem, s.str, s.len)
  }

  /** The byte at index len exists and is zero. */
  predicate Terminated(mem: seq<bv8>, s: S8)
  {
    s.str + s.len < |mem| && mem[s.str + s.len] == 0
  }

  /** Alignment and size of `u8`, the element type of every s8 allocation. */
  const U8_SIZE: int := 1
  const U8_ALIGN: int := 1

  /**
   What every successful constructor guarantees: the string of length n
   sits at the old cursor (u8 needs no padding), exactly n + 1 bytes are
   consumed, the terminator is in place, and no byte outside the fresh
   block changed.
   */
  predicate Built(s: State, v: S8, post: State, n: nat)
  {
    && v.len == n
    && v.str == s.arena.begin
    && post.arena == s.arena.(begin := s.arena.begin + n + 1)
    && Valid(post)
    && Terminated(post.mem, v)
    && UnchangedOutside(s.mem, post.mem, v.str, v.str + n + 1)
  }

  /** Room for a string of length n, terminator included. */
  predicate HasRoom(a: Arena, n: nat)
  {
    a.begin + n + 1 <= a.end
  }

  /**
   What `alloc(a, u8, n + 1)` does with default or NOZERO flags: u8 needs no
   padding and n + 1 elements take n + 1 bytes, so it succeeds at the cursor
   exactly when there is room for n bytes and the terminator, and otherwise
   aborts with the state untouched.
   */
  lemma U8Allocation(s: State, n: nat, flags: bv32)
    requires Valid(s) && !Has(flags, SOFTFAIL)
    ensures var a := AllocInternal(s, U8_SIZE, U8_ALIGN, n + 1, flags);
      && !a.SoftFailNull?
      && (a.Abort? <==> !HasRoom(s.arena, n))
      && (a.Abort? ==> a.atExit == s)
      && (a.Ok? && s.arena.base != NULL ==> a.value != NULL)
      && (a.Ok? ==> && a.value == s.arena.begin
                    && a.post.arena == s.arena.(begin := s.arena.begin + n + 1)
                    && Valid(a.post)
                    && UnchangedOutside(s.mem, a.post.mem, a.value, a.value + n + 1))
      && (a.Ok? && !Has(flags, NOZERO) ==> AllZero(a.post.mem, a.value, a.value + n + 1))
      && (a.Ok? && Has(flags, NOZERO) ==> a.post.mem == s.mem)
  {
    BytesOfUnitSize(n + 1);
    assert ValidAlignment(U8_ALIGN);
    assert Padding(s.arena.begin, U8_ALIGN) == 0;
  }

  /** The `s8(lit)` macro: the literal's storage, with `sizeof(lit) - 1` as length. */
  function Literal(at: Address, text: seq<bv8>): (r: S8)
    ensures r.str == at && r.len == |text|
  {
    S8(at, SizeofLiteral(text) - 1)
  }

  /** `sizeof` of a string literal whose characters are text: the compiler appends a NUL. */
  function SizeofLiteral(text: seq<bv8>): nat
  {
    |text| + 1
  }

  /**
   A literal stored at `at` denotes exactly its text, embedded zero bytes
   included, and the NUL the compiler appended is its terminator.
   */
  lemma LiteralDenotesItsText(mem: seq<bv8>, at: Address, text: seq<bv8>)
    requires at + |text| < |mem| && mem[at..at + |text| + 1] == text + [0]
    ensures Literal(at, text).len == |text|
    ensures Content(mem, Literal(at, text)) == text
    ensures Terminated(mem, Literal(at, text))
  {
    assert mem[at + |text|] == (text + [0])[|text|];
    assert mem[at..at + |text|] == (text + [0])[..|text|];
  }

  /** `s8_new(a, len)`: a zero-filled string of length len. */
  function New(s: State, len: nat): (r: Outcome<S8>)
    requires Valid(s)
    ensures !r.SoftFailNull?
    ensures r.Abort? <==> !HasRoom(s.arena, len)
    ensures r.Abort? ==> r.atExit == s
    ensures r.Ok? && s.arena.base != NULL ==> r.value.str != NULL
    ensures r.Ok? ==> Built(s, r.value, r.post, len)
    ensures r.Ok? ==> AllZero(r.post.mem, r.value.str, r.value.str + len + 1)
  {
    U8Allocation(s, len, 0);
    var a := AllocInternal(s, U8_SIZE, U8_ALIGN, len + 1, 0);
    if a.Abort? then Abort(a.atExit)
    else
      var p := a.value;
      var mem' := a.post.mem[p + len := 0];
      StoreInside(s.mem, a.post.mem, p, p + len + 1, p + len, 0);
      ZeroStoreKeepsZero(a.post.mem, p, p + len + 1, p + len);
      Ok(S8(p, len), a.post.(mem := mem'))
  }

  /**
   `s8_from_cstr(a, str)`: measure the C string at src, allocate without
   zero-fill, and copy the content together with its terminator.
   */
  function FromCString(s: State, src: Address): (r: Outcome<S8>)
    requires Valid(s)
    requires IsCString(s.mem, src)
    requires HasRoom(s.arena, Strlen(s.mem, src)) ==>
      NoOverlap(src, Strlen(s.mem, src) + 1, s.arena.begin, Strlen(s.mem, src) + 1)
    ensures !r.SoftFailNull?
    ensures r.Abort? <==> !HasRoom(s.arena, Strlen(s.mem, src))
    ensures r.Abort? ==> r.atExit == s
    ensures r.Ok? && s.arena.base != NULL ==> r.value.str != NULL
    ensures r.Ok? ==> && Built(s, r.value, r.post, r.value.len)
                      && FirstZero(s.mem, src, r.value.len)
                      && Content(r.post.mem, r.value) == s.mem[src..src + r.value.len]
  {
    var n := Strlen(s.mem, src);
    U8Allocation(s, n, NOZERO);
    var a := AllocInternal(s, U8_SIZE, U8_ALIGN, n + 1, NOZERO);
    if a.Abort? then Abort(a.atExit)
    else
      var p := a.value;
      CopiedWithTerminator(s.mem, p, src, n);
      Ok(S8(p, n), a.post.(mem := Memcpy(s.mem, p, src, n + 1)))
  }

  /** The memory effect of `s8_from_cstr`: content and terminator copied from src. */
  lemma CopiedWithTerminator(mem: seq<bv8>, p: Address, src: Address, n: nat)
    requires p + n < |mem| && FirstZero(mem, src, n)
    requires NoOverlap(src, n + 1, p, n + 1)
    ensures var r := Memcpy(mem, p, src, n + 1);
      && UnchangedOutside(mem, r, p, p + n + 1)
      && Content(r, S8(p, n)) == mem[src..src + n]
      && Terminated(r, S8(p, n))
  {
    var r := Memcpy(mem, p, src, n + 1);
    assert At(r, p + n) == At(mem, src + n);
    MemcpySlice(mem, p, src, n + 1);
    assert r[p..p + n] == r[p..p + n + 1][..n];
    assert mem[src..src + n] == mem[src..src + n + 1][..n];
  }

  /**
   `s8_cpy(a, str)`: allocate without zero-fill, write the terminator, then
   copy exactly `str.len` bytes, zero bytes among them included. C only
   forbids the copy's own two ranges to overlap; a source that reaches the
   terminator's address is read after the terminator was stored, so the
   result reads as the source only when the source lies outside the block.
   */
  function Copy(s: State, src: S8): (r: Outcome<S8>)
    requires Valid(s)
    requires src.str + src.len <= |s.mem|
    requires HasRoom(s.arena, src.len) ==> NoOverlap(src.str, src.len, s.arena.begin, src.len)
    ensures !r.SoftFailNull?
    ensures r.Abort? <==> !HasRoom(s.arena, src.len)
    ensures r.Abort? ==> r.atExit == s
    ensures r.Ok? && s.arena.base != NULL ==> r.value.str != NULL
    ensures r.Ok? ==> && Built(s, r.value, r.post, src.len)
                      && Content(r.post.mem, r.value) == Content(s.mem[r.value.str + src.len := 0], src)
    ensures r.Ok? && NoOverlap(src.str, src.len, r.value.str, src.len + 1) ==>
      Content(r.post.mem, r.value) == Content(s.mem, src)
  {
    U8Allocation(s, src.len, NOZERO);
    var a := AllocInternal(s, U8_SIZE, U8_ALIGN, src.len + 1, NOZERO);
    if a.Abort? then Abort(a.atExit)
    else Ok(S8(a.value, src.len), a.post.(mem := WriteCopy(s.mem, a.value, src)))
  }

  /**
   The stores of `s8_cpy` into the block at p: the terminator at p + src.len,
   then the content of src at p, read as it stands after that store.
   */
  function WriteCopy(mem: seq<bv8>, p: Address, src: S8): (r: seq<bv8>)
    requires p + src.len < |mem| && src.str + src.len <= |mem|
    requires NoOverlap(src.str, src.len, p, src.len)
    ensures UnchangedOutside(mem, r, p, p + src.len + 1)
    ensures Terminated(r, S8(p, src.len))
    ensures Content(r, S8(p, src.len)) == Content(mem[p + src.len := 0], src)
    ensures NoOverlap(src.str, src.len, p, src.len + 1) ==> Content(r, S8(p, src.len)) == Content(mem, src)
  {
    var n := src.len;
    var m1 := mem[p + n := 0];
    var r := Memcpy(m1, p, src.str, n);
    assert UnchangedOutside(mem, m1, p, p + n + 1);
    UnchangedWiden(m1, r, p, p + n, p, p + n + 1);
    UnchangedCompose(mem, m1, r, p, p + n + 1);
    assert At(r, p + n) == At(m1, p + n);
    MemcpySlice(m1, p, src.str, n);
    UnchangedSliceWhenDisjoint(mem, m1, p, p + n + 1, src.str, n);
    r
  }

  /**
   `s8_cat(a, str1, str2)`: allocate without zero-fill, write the terminator,
   then copy the first content followed contiguously by the second. C only
   forbids each copy's own two ranges to overlap; each copy reads its source
   as the earlier stores left it, so the result reads as the concatenation
   of the inputs when both lie outside the block.
   */
  function Concat(s: State, x: S8, y: S8): (r: Outcome<S8>)
    requires Valid(s)
    requires x.str + x.len <= |s.mem| && y.str + y.len <= |s.mem|
    requires HasRoom(s.arena, x.len + y.len) ==>
      && NoOverlap(x.str, x.len, s.arena.begin, x.len)
      && NoOverlap(y.str, y.len, s.arena.begin + x.len, y.len)
    ensures !r.SoftFailNull?
    ensures r.Abort? <==> !HasRoom(s.arena, x.len + y.len)
    ensures r.Abort? ==> r.atExit == s
    ensures r.Ok? && s.arena.base != NULL ==> r.value.str != NULL
    ensures r.Ok? ==> Built(s, r.value, r.post, x.len + y.len)
    ensures r.Ok? && NoOverlap(x.str, x.len, r.value.str, x.len + y.len + 1)
                  && NoOverlap(y.str, y.len, r.value.str, x.len + y.len + 1) ==>
      Content(r.post.mem, r.value) == Content(s.mem, x) + Content(s.mem, y)
  {
    var n := x.len + y.len;
    U8Allocation(s, n, NOZERO);
    var a := AllocInternal(s, U8_SIZE, U8_ALIGN, n + 1, NOZERO);
    if a.Abort? then Abort(a.atExit)
    else
      Ok(S8(a.value, n), a.post.(mem := WriteConcat(s.mem, a.value, x, y)))
  }

  /**
   The stores of `s8_cat` into the block at p: the terminator at
   p + x.len + y.len, then the content of x at p, then the content of y
   right after it. `ConcatSteps` says what each copy reads when an input
   overlaps the block.
   */
  function WriteConcat(mem: seq<bv8>, p: Address, x: S8, y: S8): (r: seq<bv8>)
    requires p + x.len + y.len < |mem|
    requires x.str + x.len <= |mem| && y.str + y.len <= |mem|
    requires NoOverlap(x.str, x.len, p, x.len)
    requires NoOverlap(y.str, y.len, p + x.len, y.len)
    ensures UnchangedOutside(mem, r, p, p + x.len + y.len + 1)
    ensures Terminated(r, S8(p, x.len + y.len))
    ensures NoOverlap(x.str, x.len, p, x.len + y.len + 1) && NoOverlap(y.str, y.len, p, x.len + y.len + 1) ==>
      Content(r, S8(p, x.len + y.len)) == Content(mem, x) + Content(mem, y)
  {
    var n := x.len + y.len;
    var m1 := mem[p + n := 0];
    var m2 := Memcpy(m1, p, x.str, x.len);
    var r := Memcpy(m2, p + x.len, y.str, y.len);
    MemcpySlice(m1, p, x.str, x.len);
    MemcpySlice(m2, p + x.len, y.str, y.len);
    ConcatSteps(mem, m1, m2, r, p, x, y);
    r
  }

  /**
   The three stores of `s8_cat`, over memories known only by what each step
   keeps and writes: the terminator store at p + x.len + y.len, a copy into
   [p, p + x.len) and a copy into the rest of the block. Together they change
   only the block, keep the terminator, leave in the first part x as it read
   after the terminator store, and, when both inputs lie outside the block,
   leave x's content followed by y's.
   */
  lemma ConcatSteps(mem: seq<bv8>, m1: seq<bv8>, m2: seq<bv8>, r: seq<bv8>, p: Address, x: S8, y: S8)
    requires p + x.len + y.len < |mem| && m1 == mem[p + x.len + y.len := 0]
    requires x.str + x.len <= |mem| && y.str + y.len <= |mem|
    requires UnchangedOutside(m1, m2, p, p + x.len)
    requires Region(m2, p, x.len) == Region(m1, x.str, x.len)
    requires UnchangedOutside(m2, r, p + x.len, p + x.len + y.len)
    requires Region(r, p + x.len, y.len) == Region(m2, y.str, y.len)
    ensures UnchangedOutside(mem, r, p, p + x.len + y.len + 1)
    ensures Terminated(r, S8(p, x.len + y.len))
    ensures Region(r, p, x.len) == Content(m1, x)
    ensures NoOverlap(x.str, x.len, p, x.len + y.len + 1) && NoOverlap(y.str, y.len, p, x.len + y.len + 1) ==>
      Content(r, S8(p, x.len + y.len)) == Content(mem, x) + Content(mem, y)
  {
    var n := x.len + y.len;
    assert UnchangedOutside(mem, m1, p, p + n + 1);
    assert At(r, p + n) == At(m2, p + n) == At(m1, p + n);
    UnchangedWiden(m1, m2, p, p + x.len, p, p + n + 1);
    UnchangedWiden(m2, r, p + x.len, p + n, p, p + n + 1);
    UnchangedCompose(mem, m1, m2, p, p + n + 1);
    UnchangedCompose(mem, m2, r, p, p + n + 1);
    UnchangedSlice(m2, r, p + x.len, p + n, p, x.len);
    RegionSplit(r, p, x.len, y.len);
    if NoOverlap(x.str, x.len, p, n + 1) && NoOverlap(y.str, y.len, p, n + 1) {
      UnchangedSlice(mem, m1, p, p + n + 1, x.str, x.len);
      UnchangedSlice(mem, m2, p, p + n + 1, y.str, y.len);
    }
  }

  /**
   A constructor writes only its own block: any string disjoint from the
   block of n + 1 bytes it built reads the same afterwards.
   */
  lemma BuiltLeavesOtherStrings(s: State, v: S8, post: State, n: nat, t: S8)
    requires Built(s, v, post, n)
    requires t.str + t.len <= |s.mem|
    requires NoOverlap(t.str, t.len, v.str, n + 1)
    ensures Content(post.mem, t) == Content(s.mem, t)
  {
    UnchangedSlice(s.mem, post.mem, v.str, v.str + n + 1, t.str, t.len);
  }

  /** `s8_cpy` leaves a source that lies outside the fresh block as it was. */
  lemma CopyLeavesSource(s: State, src: S8)
    requires Valid(s)
    requires src.str + src.len <= |s.mem|
    requires HasRoom(s.arena, src.len) ==> NoOverlap(src.str, src.len, s.arena.begin, src.len)
    ensures var r := Copy(s, src);
      r.Ok? && NoOverlap(src.str, src.len, r.value.str, src.len + 1) ==>
      Content(r.post.mem, src) == Content(s.mem, src)
  {
    var r := Copy(s, src);
    if r.Ok? && NoOverlap(src.str, src.len, r.value.str, src.len + 1) {
      BuiltLeavesOtherStrings(s, r.value, r.post, src.len, src);
    }
  }

  /**
   `s8_cat` leaves inputs that lie outside the fresh block as they were, so
   the result can be compared with them.
   */
  lemma ConcatLeavesInputs(s: State, x: S8, y: S8)
    requires Valid(s)
    requires x.str + x.len <= |s.mem| && y.str + y.len <= |s.mem|
    requires HasRoom(s.arena, x.len + y.len) ==>
      && NoOverlap(x.str, x.len, s.arena.begin, x.len)
      && NoOverlap(y.str, y.len, s.arena.begin + x.len, y.len)
    ensures var r := Concat(s, x, y);
      r.Ok? && NoOverlap(x.str, x.len, r.value.str, x.len + y.len + 1)
            && NoOverlap(y.str, y.len, r.value.str, x.len + y.len + 1) ==>
        && Content(r.post.mem, x) == Content(s.mem, x)
        && Content(r.post.mem, y) == Content(s.mem, y)
        && Content(r.post.mem, r.value) == Content(r.post.mem, x) + Content(r.post.mem, y)
  {
    var r := Concat(s, x, y);
    if r.Ok? && NoOverlap(x.str, x.len, r.value.str, x.len + y.len + 1)
             && NoOverlap(y.str, y.len, r.value.str, x.len + y.len + 1) {
      BuiltLeavesOtherStrings(s, r.value, r.post, x.len + y.len, x);
      BuiltLeavesOtherStrings(s, r.value, r.post, x.len + y.len, y);
    }
  }

  /** True iff no byte of text is zero. */
  predicate NoZeroByte(text: seq<bv8>)
  {
    forall i :: 0 <= i < |text| ==> text[i] != 0
  }

  /**
   For a literal without embedded zero bytes, `s8_from_cstr` on its storage
   agrees with `s8(lit)`: the same length and the same content, now in a
   fresh block of the arena.
   */
  lemma FromCStringOfLiteral(s: State, at: Address, text: seq<bv8>)
    requires Valid(s)
    requires at + |text| < |s.mem| && s.mem[at..at + |text| + 1] == text + [0]
    requires NoZeroByte(text)
    requires NoOverlap(at, |text| + 1, s.arena.begin, |text| + 1)
    ensures IsCString(s.mem, at) && Strlen(s.mem, at) == |text|
    ensures var r := FromCString(s, at);
      && (r.Ok? <==> HasRoom(s.arena, |text|))
      && (r.Ok? ==> && r.value.len == Literal(at, text).len
                    && Content(r.post.mem, r.value) == Content(s.mem, Literal(at, text)) == text)
  {
    LiteralDenotesItsText(s.mem, at, text);
    LiteralIsFirstZero(s.mem, at, text);
    FirstZeroUnique(s.mem, at, Strlen(s.mem, at), |text|);
  }

  /** The NUL the compiler appends to a literal without embedded zeros is its first zero byte. */
  lemma LiteralIsFirstZero(mem: seq<bv8>, at: Address, text: seq<bv8>)
    requires at + |text| < |mem| && mem[at..at + |text| + 1] == text + [0]
    requires NoZeroByte(text)
    ensures FirstZero(mem, at, |text|)
    ensures IsCString(mem, at)
  {
    forall i | at <= i < at + |text|
      ensures mem[i] != 0
    {
      assert mem[i] == (text + [0])[i - at] == text[i - at];
    }
    assert mem[at + |text|] == (text + [0])[|text|];
  }

  /**
   The length, not the terminator, delimits an s8: a literal with a zero byte
   at index k keeps all its bytes under `s8_cpy`, whereas `s8_from_cstr`
   reading the same storage stops at index k.
   */
  lemma LengthNotTerminatorDelimits(s: State, at: Address, text: seq<bv8>, k: nat)
    requires Valid(s)
    requires at + |text| < |s.mem| && s.mem[at..at + |text| + 1] == text + [0]
    requires k < |text| && text[k] == 0 && NoZeroByte(text[..k])
    requires NoOverlap(at, |text| + 1, s.arena.begin, |text| + 1)
    requires HasRoom(s.arena, |text|)
    ensures IsCString(s.mem, at)
    ensures Copy(s, Literal(at, text)).Ok?
    ensures Copy(s, Literal(at, text)).value.len == |text|
    ensures Content(Copy(s, Literal(at, text)).post.mem, Copy(s, Literal(at, text)).value) == text
    ensures FromCString(s, at).Ok?
    ensures FromCString(s, at).value.len == k < |text|
  {
    LiteralDenotesItsText(s.mem, at, text);
    forall i | at <= i < at + k
      ensures s.mem[i] != 0
    {
      assert s.mem[i] == (text + [0])[i - at] == text[i - at] == text[..k][i - at];
    }
    assert s.mem[at + k] == (text + [0])[k];
    assert FirstZero(s.mem, at, k);
    FirstZeroUnique(s.mem, at, Strlen(s.mem, at), k);
  }
}

=== FILE: scenarios.dfy ===
/**
 Concrete runs of the arena and the s8 constructors: a fresh arena serving a
 small zero-filled request, an undersized arena refusing a request in both
 failure modes, two C strings read into an arena and concatenated, and the
 copies reading an input that sits at the cursor after earlier stores
 overwrote it.
 */
module Scenarios {
  import opened Alignment
  import opened LibC
  import opened Memory
  import opened ByteString

  /** The bytes of "foo" and "bar". */
  const FOO: seq<bv8> := [0x66, 0x6f, 0x6f]
  const BAR: seq<bv8> := [0x62, 0x61, 0x72]

  /**
   An arena of 1024 bytes serves 10 bytes with default flags: the block is
   the start of the arena, all zero, and the cursor moves to offset 10.
   */
  lemma ArenaServesTenZeroBytes(mem: seq<bv8>, block: Address)
    requires block != NULL && block + 1024 <= |mem|
    ensures Valid(State(ArenaInit(block, 1024), mem))
    ensures var r := AllocCount(State(ArenaInit(block, 1024), mem), 1, 1, 10);
      && r.Ok?
      && r.value == block
      && r.post.arena.begin == block + 10
      && r.post.arena.end == block + 1024
      && AllZero(r.post.mem, block, block + 10)
  {
    BytesOfUnitSize(10);
    assert Padding(block, 1) == 0;
  }

  /**
   An arena of 16 bytes cannot serve 20: with SOFTFAIL the result is NULL and
   the state is as before; with default flags the process aborts, untouched.
   */
  lemma SmallArenaRefusesLargeRequest(mem: seq<bv8>, block: Address)
    requires block != NULL && block + 16 <= |mem|
    ensures Valid(State(ArenaInit(block, 16), mem))
    ensures AllocInternal(State(ArenaInit(block, 16), mem), 1, 1, 20, SOFTFAIL)
      == SoftFailNull(State(ArenaInit(block, 16), mem))
    ensures AllocInternal(State(ArenaInit(block, 16), mem), 1, 1, 20, 0)
      == Abort(State(ArenaInit(block, 16), mem))
  {
    BytesOfUnitSize(20);
    assert Padding(block, 1) == 0;
    assert Has(SOFTFAIL, SOFTFAIL) && !Has(0, SOFTFAIL);
  }

  /**
   With "foo" and "bar" stored as C strings at addresses 0 and 4 and an arena
   over [8, 40): reading both into the arena and concatenating them gives
   strings of length 3, 3 and 6 reading "foo", "bar" and "foobar", each
   followed by its terminator, placed one after another from address 8.
   */
  method FooBar(mem: seq<bv8>) returns (a: S8, b: S8, c: S8, post: State)
    requires |mem| >= 40 && mem[0..8] == FOO + [0] + BAR + [0]
    ensures a == S8(8, 3) && b == S8(12, 3) && c == S8(16, 6)
    ensures Valid(post) && post.arena == Arena(8, 23, 40)
    ensures Content(post.mem, a) == FOO && Terminated(post.mem, a)
    ensures Content(post.mem, b) == BAR && Terminated(post.mem, b)
    ensures Content(post.mem, c) == FOO + BAR && Terminated(post.mem, c)
  {
    var s2;
    a, b, s2 := ReadFooAndBar(mem);
    // c = s8_cat(arena, a, b)
    var rc := Concat(s2, a, b);
    ConcatLeavesInputs(s2, a, b);
    c := rc.value;
    post := rc.post;
    assert Terminated(post.mem, a) by {
      assert At(post.mem, 11) == At(s2.mem, 11);
    }
    assert Terminated(post.mem, b) by {
      assert At(post.mem, 15) == At(s2.mem, 15);
    }
  }

  /** The first two steps of `FooBar`: "foo" and "bar" read into the arena. */
  method ReadFooAndBar(mem: seq<bv8>) returns (a: S8, b: S8, s2: State)
    requires |mem| >= 40 && mem[0..8] == FOO + [0] + BAR + [0]
    ensures a == S8(8, 3) && b == S8(12, 3)
    ensures Valid(s2) && s2.arena == Arena(8, 16, 40) && |s2.mem| == |mem|
    ensures Content(s2.mem, a) == FOO && Terminated(s2.mem, a)
    ensures Content(s2.mem, b) == BAR && Terminated(s2.mem, b)
  {
    var s1;
    a, s1 := ReadFoo(mem);
    assert NoZeroByte(BAR);

    // b = s8_from_cstr(arena, "bar")
    FromCStringOfLiteral(s1, 4, BAR);
    var rb := FromCString(s1, 4);
    b := rb.value;
    s2 := rb.post;
    BuiltLeavesOtherStrings(s1, b, s2, 3, a);
    assert Terminated(s2.mem, a) by {
      assert At(s2.mem, 11) == At(s1.mem, 11);
    }
  }

  /**
   The first step of `FooBar`: "foo" read into a fresh arena over [8, 40),
   leaving "bar" below the arena intact.
   */
  method ReadFoo(mem: seq<bv8>) returns (a: S8, s1: State)
    requires |mem| >= 40 && mem[0..8] == FOO + [0] + BAR + [0]
    ensures a == S8(8, 3)
    ensures Valid(s1) && s1.arena == Arena(8, 12, 40) && |s1.mem| == |mem|
    ensures Content(s1.mem, a) == FOO && Terminated(s1.mem, a)
    ensures s1.mem[4..8] == BAR + [0]
  {
    var s0 := State(ArenaInit(8, 32), mem);
    assert mem[0..4] == (FOO + [0] + BAR + [0])[0..4] == FOO + [0];
    assert mem[4..8] == (FOO + [0] + BAR + [0])[4..8] == BAR + [0];
    assert NoZeroByte(FOO);

    // a = s8_from_cstr(arena, "foo")
    FromCStringOfLiteral(s0, 0, FOO);
    var ra := FromCString(s0, 0);
    a := ra.value;
    s1 := ra.post;

    // "bar" lies below the arena, so it is intact
    UnchangedSlice(mem, s1.mem, 8, 12, 4, 4);
    assert s1.mem[4..8] == Region(s1.mem, 4, 4) == Region(mem, 4, 4) == BAR + [0];
  }

  /**
   A string built in a by-value copy of the arena sits at the original's
   cursor. Passed as the second input of `s8_cat` after "a", it is
   overwritten by the first copy before the second copy reads it, so the
   result reads "aa" rather than "ab".
   */
  lemma ConcatReadsSecondInputAfterFirstCopy(mem: seq<bv8>)
    requires |mem| >= 8 && mem[0] == 0x61 && mem[2] == 0x62
    ensures var s := State(Arena(2, 2, 8), mem);
      && Valid(s)
      && Concat(s, S8(0, 1), S8(2, 1)).Ok?
      && Content(s.mem, S8(0, 1)) + Content(s.mem, S8(2, 1)) == [0x61, 0x62]
      && Content(Concat(s, S8(0, 1), S8(2, 1)).post.mem, Concat(s, S8(0, 1), S8(2, 1)).value) == [0x61, 0x61]
  {
    var s := State(Arena(2, 2, 8), mem);
    var r := Concat(s, S8(0, 1), S8(2, 1));
    var m1 := mem[4 := 0];
    var m2 := Memcpy(m1, 2, 0, 1);
    var m3 := Memcpy(m2, 3, 2, 1);
    assert r.post.mem == m3;
    assert At(m3, 2) == At(m2, 2) == At(m1, 0) == 0x61;
    assert At(m3, 3) == At(m2, 2);
    assert r.value == S8(2, 2);
    assert Content(m3, S8(2, 2)) == [At(m3, 2), At(m3, 3)];
    assert Content(mem, S8(0, 1)) == [mem[0]] && Content(mem, S8(2, 1)) == [mem[2]];
  }

  /**
   A source of `s8_cpy` that starts where the copy's terminator goes is
   overwritten by the terminator store before the copy reads it: copying
   the one-byte string "b" at the cursor plus one yields a zero byte.
   */
  lemma CopyReadsSourceAfterTerminator(mem: seq<bv8>)
    requires |mem| >= 8 && mem[1] == 0x62
    ensures var s := State(Arena(0, 0, 8), mem);
      && Valid(s)
      && Copy(s, S8(1, 1)).Ok?
      && Content(s.mem, S8(1, 1)) == [0x62]
      && Content(Copy(s, S8(1, 1)).post.mem, Copy(s, S8(1, 1)).value) == [0]
  {
    var s := State(Arena(0, 0, 8), mem);
    assert Content(mem, S8(1, 1)) == [mem[1]];
    assert Content(mem[1 := 0], S8(1, 1)) == [0];
  }
}

=== FILE: trace.dfy ===
/**
 A run of allocation requests against one arena, in call order.

 Bump allocation makes the layout a function of the call sequence: each
 successful request is placed at or after the end of the previous block, so
 blocks never overlap, never leave the arena's free region, and keep their
 contents while later requests are served.
 */
module Trace {
  import opened Alignment
  import opened LibC
  import opened Memory

  /** The arguments of one `alloc_internal` call after macro expansion. */
  datatype Request = Request(sz: int, align: int, count: int, flags: bv32)

  predicate WellFormed(q: Request)
  {
    WellFormedRequest(q.sz, q.align, q.count)
  }

  /** A block handed out by a successful allocation, with the index of the request it serves. */
  datatype Block = Block(request: nat, addr: Address, size: nat, align: int, zeroed: bool)

  /** The blocks handed out, the final state, and whether the run ended in abort. */
  datatype Run = Run(blocks: seq<Block>, post: State, aborted: bool)

  /** Blocks listed in call order serve increasing requests and lie one after another. */
  predicate Ordered(blocks: seq<Block>)
  {
    forall j, k :: 0 <= j < k < |blocks| ==>
      blocks[j].request < blocks[k].request && blocks[j].addr + blocks[j].size <= blocks[k].addr
  }

  /** The block has the size, alignment and fill its request asks for. */
  predicate Describes(b: Block, q: Request)
    requires WellFormed(q)
  {
    b.size == Bytes(q.count, q.sz) && b.align == q.align && b.zeroed == !Has(q.flags, NOZERO)
  }

  /** Every block names one of the requests and is what that request asks for. */
  predicate Serves(blocks: seq<Block>, qs: seq<Request>)
    requires forall i :: 0 <= i < |qs| ==> WellFormed(qs[i])
  {
    forall k :: 0 <= k < |blocks| ==> blocks[k].request < |qs| && Describes(blocks[k], qs[blocks[k].request])
  }

  /** The blocks of a run over qs[1..], renumbered against qs. */
  function Shift(blocks: seq<Block>): seq<Block>
  {
    seq(|blocks|, k requires 0 <= k < |blocks| => blocks[k].(request := blocks[k].request + 1))
  }

  /** Every block lies in [lo, hi), is aligned, and is still zero if it was zero-filled. */
  predicate Placed(blocks: seq<Block>, mem: seq<bv8>, lo: nat, hi: nat)
    requires hi <= |mem|
  {
    forall k :: 0 <= k < |blocks| ==>
      && lo <= blocks[k].addr
      && blocks[k].addr + blocks[k].size <= hi
      && blocks[k].align > 0 && Aligned(blocks[k].addr, blocks[k].align)
      && (blocks[k].zeroed ==> AllZero(mem, blocks[k].addr, blocks[k].addr + blocks[k].size))
  }

  /**
   Serve the requests in order. A NULL from SOFTFAIL hands out nothing and
   the run continues; an abort ends it.
   */
  function Execute(s: State, qs: seq<Request>): (t: Run)
    requires Valid(s)
    requires forall i :: 0 <= i < |qs| ==> WellFormed(qs[i])
    ensures Valid(t.post)
    ensures t.post.arena.base == s.arena.base && t.post.arena.end == s.arena.end
    ensures s.arena.begin <= t.post.arena.begin
    ensures UnchangedOutside(s.mem, t.post.mem, s.arena.begin, s.arena.end)
    ensures Placed(t.blocks, t.post.mem, s.arena.begin, t.post.arena.begin)
    ensures Ordered(t.blocks)
    ensures Serves(t.blocks, qs)
    ensures t.aborted ==> exists i :: 0 <= i < |qs| && !Has(qs[i].flags, SOFTFAIL)
    decreases |qs|
  {
    if |qs| == 0 then Run([], s, false)
    else
      var q := qs[0];
      assert WellFormed(q);
      match AllocInternal(s, q.sz, q.align, q.count, q.flags)
      case Ok(p, s1) =>
        var rest := Execute(s1, qs[1..]);
        var n := Bytes(q.count, q.sz);
        var b := Block(0, p, n, q.align, !Has(q.flags, NOZERO));
        KeptZero(s1.mem, rest.post.mem, p, n, s1.arena.begin, s1.arena.end, b.zeroed);
        ShiftBlocks(rest.blocks, qs, rest.post.mem, s1.arena.begin, rest.post.arena.begin);
        PrependBlock(b, Shift(rest.blocks), qs, rest.post.mem, s.arena.begin, s1.arena.begin, rest.post.arena.begin);
        Run([b] + Shift(rest.blocks), rest.post, rest.aborted)
      case SoftFailNull(s1) =>
        var rest := Execute(s1, qs[1..]);
        ShiftBlocks(rest.blocks, qs, rest.post.mem, s1.arena.begin, rest.post.arena.begin);
        Run(Shift(rest.blocks), rest.post, rest.aborted)
      case Abort(s1) =>
        Run([], s1, true)
  }

  /**
   The first request is served first when it fits, at the padded cursor;
   when it does not fit and lacks SOFTFAIL the run aborts at once with the
   state unchanged.
   */
  lemma FirstRequestDecides(s: State, qs: seq<Request>)
    requires Valid(s) && |qs| > 0
    requires forall i :: 0 <= i < |qs| ==> WellFormed(qs[i])
    ensures var t := Execute(s, qs);
      && (Fits(s.arena, qs[0].sz, qs[0].align, qs[0].count) ==>
            && |t.blocks| > 0 && t.blocks[0].request == 0
            && t.blocks[0].addr == s.arena.begin + Padding(s.arena.begin, qs[0].align))
      && (!Fits(s.arena, qs[0].sz, qs[0].align, qs[0].count) && !Has(qs[0].flags, SOFTFAIL) ==>
            t.aborted && t.blocks == [] && t.post == s)
  {
  }

  /**
   A run hands out at most one block per request, and exactly one per
   request when no request may soft-fail and the run does not abort.
   */
  lemma {:induction false} OneBlockPerRequest(s: State, qs: seq<Request>)
    requires Valid(s)
    requires forall i :: 0 <= i < |qs| ==> WellFormed(qs[i])
    ensures var t := Execute(s, qs);
      && |t.blocks| <= |qs|
      && (!t.aborted && (forall i :: 0 <= i < |qs| ==> !Has(qs[i].flags, SOFTFAIL)) ==> |t.blocks| == |qs|)
    decreases |qs|
  {
    if |qs| > 0 {
      var q := qs[0];
      var r := AllocInternal(s, q.sz, q.align, q.count, q.flags);
      if !r.Abort? {
        OneBlockPerRequest(r.post, qs[1..]);
        assert forall i :: 0 <= i < |qs[1..]| ==> qs[1..][i] == qs[i + 1];
      }
    }
  }

  /** Renumbering the blocks of a run over qs[1..] against qs keeps every invariant. */
  lemma ShiftBlocks(blocks: seq<Block>, qs: seq<Request>, mem: seq<bv8>, lo: nat, hi: nat)
    requires |qs| > 0 && forall i :: 0 <= i < |qs| ==> WellFormed(qs[i])
    requires hi <= |mem|
    requires Placed(blocks, mem, lo, hi) && Ordered(blocks) && Serves(blocks, qs[1..])
    ensures Placed(Shift(blocks), mem, lo, hi) && Ordered(Shift(blocks)) && Serves(Shift(blocks), qs)
    ensures forall k :: 0 <= k < |Shift(blocks)| ==> Shift(blocks)[k].request > 0
  {
    var bs := Shift(blocks);
    forall k | 0 <= k < |bs|
      ensures bs[k].request < |qs| && Describes(bs[k], qs[bs[k].request])
    {
      assert qs[1..][blocks[k].request] == qs[bs[k].request];
    }
  }

  /** A block placed below the blocks of the rest of the run extends every invariant. */
  lemma PrependBlock(b: Block, blocks: seq<Block>, qs: seq<Request>, mem: seq<bv8>, lo: nat, mid: nat, hi: nat)
    requires |qs| > 0 && forall i :: 0 <= i < |qs| ==> WellFormed(qs[i])
    requires lo <= b.addr && b.addr + b.size <= mid <= hi <= |mem|
    requires b.align > 0 && Aligned(b.addr, b.align)
    requires b.zeroed ==> AllZero(mem, b.addr, b.addr + b.size)
    requires b.request == 0 && Describes(b, qs[0])
    requires Placed(blocks, mem, mid, hi) && Ordered(blocks) && Serves(blocks, qs)
    requires forall k :: 0 <= k < |blocks| ==> blocks[k].request > 0
    ensures Placed([b] + blocks, mem, lo, hi) && Ordered([b] + blocks) && Serves([b] + blocks, qs)
  {
    var bs := [b] + blocks;
    forall k | 0 <= k < |bs|
      ensures bs[k] == if k == 0 then b else blocks[k - 1]
    {
    }
  }

  /** A block below the region a later step may touch keeps its zero fill. */
  lemma KeptZero(mem: seq<bv8>, mem': seq<bv8>, p: nat, n: nat, lo: nat, hi: nat, zeroed: bool)
    requires p + n <= lo <= hi <= |mem|
    requires UnchangedOutside(mem, mem', lo, hi)
    requires zeroed ==> AllZero(mem, p, p + n)
    ensures zeroed ==> AllZero(mem', p, p + n)
  {
  }

  /**
   Served from a fresh arena of capacity `size`, every block lies inside the
   block the system allocator returned, and the corrected release hands that
   block back, whereas the as-written release hands back the final cursor.
   */
  lemma RunFromFreshArena(mem: seq<bv8>, block: Address, size: nat, qs: seq<Request>)
    requires block != NULL && block + size <= |mem|
    requires forall i :: 0 <= i < |qs| ==> WellFormed(qs[i])
    ensures var s := State(ArenaInit(block, size), mem);
      Valid(s) &&
      var t := Execute(s, qs);
      && (forall k :: 0 <= k < |t.blocks| ==>
            block <= t.blocks[k].addr && t.blocks[k].addr + t.blocks[k].size <= block + size)
      && ArenaFree(t.post.arena).freed == block
      && ArenaFreeAsWritten(t.post.arena).freed == t.post.arena.begin
  {
    var s := State(ArenaInit(block, size), mem);
    var t := Execute(s, qs);
    assert Placed(t.blocks, t.post.mem, s.arena.begin, t.post.arena.begin);
  }
}
